=== FILE: README.md ===
# Prepaid RFID wallet: ledger and spending windows

This project models two parts of a prepaid-wallet system in which an RFID
card, identified by its scanned uid, holds a balance that users top up and
merchants deduct from.

- **The backend ledger** (`Ledger`, in `ledger.dfy`). One store holds the
  cards (uid → email, PIN, balance, totalSpent) and three append-only logs:
  scans, fees and transactions. The `Store` class has these four parts as
  fields, and one method per request handler:
  - `RecordScan` creates a blank card on first sight and logs the scan.
  - `Balance` reads a balance; an unknown uid reads as 0.
  - `RegisterUser` sets the email and PIN that are supplied.
  - `Topup` credits the card, creating it if needed, and logs a `topup`.
  - `Deduct` runs the gates in the handler's order: missing field, unknown
    card, PIN for amounts above ₹100, then a 2% fee above ₹500, then the
    balance check against amount plus fee. `SavePayment` then writes the
    result back: it debits, adds the principal to totalSpent, logs the
    payment and, if a fee was charged, the fee. A refused request leaves
    the store unchanged. The fee record the handler builds before the
    balance check is thrown away with its working copy.

  The store invariant `Consistent` is kept by every handler:
  - every log entry names a known card;
  - each card's totalSpent is the sum of its payments' principal;
  - each balance is its top-ups minus its payments (fees included);
  - no card is stored under the empty uid;
  - the fee log lists, in order, the uid, fee and time of every payment
    that charged a fee, and nothing else (one instant is taken for a
    payment's two clock reads, see "Left out").
- **The spending-limit page** (`SpendingLimits`, in `limits.dfy`, with date
  arithmetic in `Calendar`, `calendar.dfy`). It covers:
  - which stored limit is shown: daily, then weekly, then monthly, else
    the first stored key;
  - when its period starts: local midnight today, of the last Sunday, or
    of the 1st of the month;
  - the period spend: the sum of the amounts dated at or after that start;
  - whether the limit is exceeded, and how much remains;
  - the checks made before a new limit is sent.

Money is whole paise, so ₹100 is 10000. The fee is 2% of the amount rounded
to the nearest paisa, with halves rounded up. This stands in for
JavaScript's `toFixed(2)`. Request fields that may be missing or falsy are
modelled this way:
- a missing uid, email or PIN is the empty string;
- a missing amount is `None`.

Instants on the backend are opaque integers passed in by the caller. On the
limits page they are milliseconds on the local clock, counted from local
midnight of 1970-01-01. Local days are converted to civil dates with an
era-based day-number algorithm. Its round trip and its "1st of the month"
property are proved in `Calendar`.

The model follows the code, which:
- topup and deduct do not reject zero or negative amounts;
- deduct has no spending-limit gate;
- the limits page sums every transaction it receives, whatever its type;
- the limits page counts a missing amount as 0.

Because top-ups may be negative, a non-negative balance is not a store
invariant. It is guaranteed only right after a successful deduct, which is
what `Deduct` promises.

## Model

| member | source | states |
|---|---|---|
| `Ledger.TwoPercent` | backend/server.js:170 | the fee is the nearest whole paisa to 2% of the amount (within half a paisa, halves up) |
| `Ledger.PlatformFee` | backend/server.js:167-172 | no fee up to ₹500; above it a positive fee equal to 2% rounded to the paisa |
| `Ledger.FeeExamples` | backend/server.js:168-174 | ₹500 pays no fee; ₹500.01 pays ₹10.00, ₹600 pays ₹12.00, ₹1000 pays ₹20.00 |
| `Ledger.PaidByAppend` | backend/server.js:184-194 | logging a transaction adds its principal to its card's payment total only if it is a payment of that card |
| `Ledger.NetFlowAppend` | backend/server.js:113-122 | logging a transaction moves its card's net flow by +finalAmount (top-up) or −finalAmount (payment), others unchanged |
| `Ledger.FeeEntries` | backend/server.js:171 | the fee log read as (uid, fee, time) entries has one entry per record, in the same order |
| `Ledger.FeeLogOfEntries` | backend/server.js:169-194 | the fee log matches the transaction log exactly when its (uid, fee, time) entries are, in order, those of the payments that charged a fee |
| `Ledger.FeeLogOfAppend` | backend/server.js:169-194 | logging a transaction keeps the fee log matched when a fee record with its uid, fee and time is added iff it is a payment with a positive fee |
| `Ledger.FeeTotalCharged` | backend/server.js:171 | a matched fee log totals exactly the fees the payments charged |
| `Ledger.UnloggedUid` | backend/server.js:38-45 | a uid no transaction names has paid and received nothing, so a new card starts consistent at 0/0 |
| `Ledger.NewCardConsistent` | backend/server.js:38-45 | creating the blank card `{email:"", pin:"", balance:0, totalSpent:0}` for an absent non-empty uid keeps the store invariant |
| `Ledger.TopupConsistent` | backend/server.js:107-124 | crediting the amount and logging a `topup` with fee 0 and finalAmount = amount keeps the store invariant |
| `Ledger.PaymentConsistent` | backend/server.js:168-196 | debiting amount + fee, adding the principal to totalSpent, logging the payment and the fee (iff positive) keeps the store invariant |
| `Ledger.Store.constructor` | backend/server.js:14-17 | the initial store has no cards and empty scan, fee and transaction logs, and satisfies the invariant |
| `Ledger.Store.EnsureCard` | backend/server.js:38-45 | an absent card is created blank, an existing one is left as it is; the logs do not change |
| `Ledger.Store.RecordScan` | backend/server.js:32-55 | empty uid is refused with nothing changed; otherwise the card is created only if absent (an existing card is untouched), exactly one scan is appended and its balance returned |
| `Ledger.Store.Balance` | backend/server.js:70-75 | returns the stored balance, 0 for an unknown uid, and changes nothing |
| `Ledger.Store.RegisterUser` | backend/server.js:81-95 | empty uid is refused; otherwise the card is created if absent and email / PIN are overwritten only when supplied non-empty, the logs untouched |
| `Ledger.Store.Topup` | backend/server.js:102-138 | missing uid or amount is refused with nothing changed; otherwise the balance rises by exactly the amount, one `topup` (fee 0, finalAmount = amount) is appended and nothing else changes |
| `Ledger.Store.Deduct` | backend/server.js:148-212 | gates in order: missing field, "Card not found", "User PIN not set" / "Incorrect PIN" only above ₹100, "Insufficient balance" when balance < amount + fee; any refusal leaves the store unchanged; success debits amount + fee (balance stays ≥ 0), adds the principal to totalSpent, appends one payment and a fee record iff fee > 0, touches no other card, and reports rewardEligible iff totalSpent > ₹5000 |
| `Ledger.Store.SavePayment` | backend/server.js:169-194 | writing back a deduction debits amount + fee, adds the principal to totalSpent, appends the payment and (iff the fee is positive) the fee record with the card's email, and keeps the invariant |
| `Ledger.FreshCardScenario` | backend/server.js:102-212 | top up ₹1000; ₹600 without a PIN is refused (PIN not set); after registering a PIN it pays ₹12 fee leaving ₹388, not reward-eligible; ₹400 more is refused and the balance stays ₹388 |
| `Calendar.DayNumber` | src/user/UseLimits.js:104-108 | the local day of an instant: the instant lies within that day's 24 hours |
| `Calendar.MidnightDay` | src/user/UseLimits.js:108 | midnight of a day lies on that day |
| `Calendar.MidnightShift` | src/user/UseLimits.js:111-113 | midnights k days apart are k × 24 hours apart |
| `Calendar.Weekday` | src/user/UseLimits.js:110 | day of week lies in 0..6, counting 0 as Sunday (day 0 is a Thursday, see `Calendar.EpochDay`) |
| `Calendar.WeekdayNext` | src/user/UseLimits.js:110 | the next day's weekday is one more, Saturday (6) wrapping to Sunday (0); with `Calendar.EpochDay` this fixes the weekday of every day |
| `Calendar.WeekStartIsSunday` | src/user/UseLimits.js:110-112 | moving back by the weekday lands on a Sunday |
| `Calendar.LeapYearPeriodic` | src/user/UseLimits.js:108 | the Gregorian leap rule repeats every 400 years |
| `Calendar.CivilFromDays` | src/user/UseLimits.js:104-116 | the civil date of a day is a valid Gregorian date: month 1..12, day from 1 to the month's length (29 for February only in leap years) |
| `Calendar.CivilRoundTrip` | src/user/UseLimits.js:108 | a day's civil date converts back to the same day |
| `Calendar.DaysFromCivilRoundTrip` | src/user/UseLimits.js:108-115 | a valid civil date converts to a day whose civil date is that date |
| `Calendar.MonthLength` | src/user/UseLimits.js:115 | the 1st of the next month (1 January of the next year after December) lies exactly the month's length after the 1st of the month |
| `Calendar.FirstOfMonth` | src/user/UseLimits.js:115 | the 1st of a day's month is day − (dayOfMonth − 1), with the same year and month |
| `Calendar.DaysFromCivilShift` | src/user/UseLimits.js:111-112 | setting the day of month back by k moves the date back by exactly k days, across month ends |
| `Calendar.EpochDay` | src/user/UseLimits.js:110 | 1970-01-01 is day 0 and a Thursday (weekday 4) |
| `Calendar.EpochCivil` | src/user/UseLimits.js:108 | day 0 is 1970-01-01 |
| `SpendingLimits.Lookup` | src/user/UseLimits.js:39-40 | no entry exactly when no stored key equals the kind; otherwise the entry is the one under the first occurrence of the key |
| `SpendingLimits.FirstPresent` | src/user/UseLimits.js:38-39 | the kind found has an entry and every kind before it in the priority list has none; none found means no priority kind has one |
| `SpendingLimits.ActiveKind` | src/user/UseLimits.js:36-40 | a kind is chosen exactly when some limit is stored, and the chosen kind has a stored entry |
| `SpendingLimits.ActiveKindPriority` | src/user/UseLimits.js:36-40 | daily if present, else weekly, else monthly, else the first stored key |
| `SpendingLimits.SavedLimit` | src/user/UseLimits.js:36-52 | the loaded limit is the active kind's stored amount and setAt for this uid, and is absent only when no limit is stored |
| `SpendingLimits.LastScannedUid` | src/user/UseLimits.js:24-29 | the uid of the last scan, which is one of the scanned uids; with non-empty scan uids it is empty exactly when there was no scan |
| `SpendingLimits.NoCardScannedIffNoScan` | src/user/UseLimits.js:131-135 | with non-empty scan uids, setting a limit is refused for want of a card exactly when no scan was logged |
| `SpendingLimits.DailyStart` | src/user/UseLimits.js:107-108 | the daily start is midnight of today's date: on the same day as now, at most now and within 24 hours of it |
| `SpendingLimits.WeeklyStart` | src/user/UseLimits.js:109-113 | the weekly start is midnight of today minus getDay() days, a Sunday, within 7 days before the daily start |
| `SpendingLimits.MonthlyStart` | src/user/UseLimits.js:114-115 | the monthly start is midnight of the 1st of the current year and month, within 31 days before the daily start |
| `SpendingLimits.PeriodStart` | src/user/UseLimits.js:105-116 | a start exists exactly for daily, weekly and monthly; it is a midnight at most now and less than 32 days before it |
| `SpendingLimits.InPeriodTxs` | src/user/UseLimits.js:118-121 | keeps exactly the input transactions dated at or after the start, each as often as in the input |
| `SpendingLimits.InPeriodTxsAppend` | src/user/UseLimits.js:118-121 | the filter keeps input order: one more transaction at the end of the log is kept, at the end, exactly when it lies in the period |
| `SpendingLimits.TotalAmount` | src/user/UseLimits.js:123 | the reduced sum is not negative when no amount is |
| `SpendingLimits.PeriodSpend` | src/user/UseLimits.js:118-123 | with no transaction in the period the spend is 0; with no negative amount it is not negative |
| `SpendingLimits.PeriodSpendAppend` | src/user/UseLimits.js:118-123 | a transaction adds its amount (missing = 0) iff it is dated at or after the start; the boundary counts |
| `SpendingLimits.TotalAmountConcat` | src/user/UseLimits.js:123 | the reduced sum splits over concatenation |
| `SpendingLimits.PeriodSpendMonotone` | src/user/UseLimits.js:118-123 | with non-negative amounts a later start never shows more spend |
| `SpendingLimits.DailySpendIsSmallest` | src/user/UseLimits.js:104-123 | the day's spend never exceeds the week's or the month's |
| `SpendingLimits.CurrentSpending` | src/user/UseLimits.js:84-123 | without a limit the current spending is 0, and so it is for a kind with no period start; with no negative amount it is not negative |
| `SpendingLimits.IsLimitExceeded` | src/user/UseLimits.js:217 | the limit is exceeded exactly when a limit is set and nothing of it remains |
| `SpendingLimits.RemainingAmount` | src/user/UseLimits.js:218 | the remainder is never negative and at least limit − spending |
| `SpendingLimits.RemainderCompletesLimit` | src/user/UseLimits.js:217-218 | below the limit, spending + remainder = limit and something remains |
| `SpendingLimits.NewLimit` | src/user/UseLimits.js:131-147 | refused when no card was scanned or the amount is missing or ≤ 0; otherwise the limit carries kind, amount, uid and now |
| `SpendingLimits.NewLimitNotExceeded` | src/user/UseLimits.js:137-147 | a limit that passed the checks is not exceeded at zero spend and has all of it remaining |

## Left out

- Express routing, CORS, the JSON file store (`loadDB`/`saveDB`), the `500 Server error` paths and `app.listen`: the store is in memory and each handler is one atomic step.
- Concurrency: the read-modify-write race between simultaneous requests is not modelled.
- Email receipts (`sendEmail`, `backend/email.js`): fire-and-forget I/O with no effect on the store.
- `GET /scans`, `GET /fees` and `GET /transactions`: they return stored data unchanged.
- Floating point: amounts are whole paise. `Number(...)` on non-numeric input (NaN), float rounding artefacts of `toFixed(2)`, and fractional paise are not modelled.
- Uids that name members of JavaScript's `Object.prototype` (`constructor`, `toString`, `__proto__` and the like): the handlers' `db.cards[uid]` finds an inherited member there, so no card is created and the update lands on that member. The model treats every non-empty uid as an ordinary key.
- Ledger.Store.Deduct and Ledger.Store.SavePayment: one instant `now` stands for both clock reads of a payment, the fee record's (backend/server.js:171) and the transaction's (backend/server.js:193). The handler reads the clock twice, so the two ISO strings can differ by a millisecond; the fee log's time match in `Consistent` holds only under this single-instant reading.
- Clock and time zone: `new Date()` is a parameter. Local time is a fixed offset from UTC with no daylight saving. Parsing ISO time strings is not modelled.
- SpendingLimits.InPeriod: a `time` that is present but falsy (0 or the empty string) makes the page fall back to `timestamp`; the model takes any present `time`. The backend writes ISO strings, which are never falsy.
- The limits page's network calls (`/limit/:uid`, `/set-limit`, `/transactions/:uid`, the limit delete), its localStorage fallback, polling, React state and rendering. None of these endpoints exist in the backend shown, so server-side limit enforcement is not modelled either.
- `handleRemoveLimit` and the display percentage `spendingPercentage` (a float) are not modelled.
- Object key order of the stored limits is the order of the list given; JavaScript's reordering of integer-like keys is not modelled.
- SpendingLimits.CurrentSpending: its contract states the two zero cases and non-negativity. In the other case it is the period spend of `PeriodStart`, and the lemmas about `PeriodSpend` state its properties.
- Blockchain rewards, the other pages and the UI components are outside this model.

=== FILE: basics.dfy ===
/** Small wrapper datatypes shared by the ledger and the limits page. */
module Basics {
  /** A value that may be absent (a missing request field, an unset key). */
  datatype Option<+T> = None | Some(value: T)

  /** Either a value or the error that was returned instead. */
  datatype Result<+T, +E> = Ok(value: T) | Err(error: E)
}

=== FILE: calendar.dfy ===
/**
 * Local calendar arithmetic behind the spending-limit windows.
 *
 * An instant is a whole number of milliseconds on the local clock, counted
 * from local midnight of 1970-01-01 (a fixed UTC offset, no daylight saving).
 * A day number counts local days from that date; the civil calendar is the
 * proleptic Gregorian one. Months run 1..12 (JavaScript's getMonth is 0..11).
 */
module Calendar {
  const MsPerDay: int := 86_400_000

  datatype Civil = Civil(year: int, month: int, day: int)

  /** The local day an instant falls on (floor division, also before 1970). */
  function DayNumber(t: int): (d: int)
    ensures Midnight(d) <= t < Midnight(d) + MsPerDay
  {
    t / MsPerDay
  }

  /** The instant of local midnight that starts day `d`. */
  function Midnight(d: int): int { d * MsPerDay }

  lemma MidnightDay(d: int)
    ensures DayNumber(Midnight(d)) == d
  {
  }

  /** Midnights `k` days apart are `k` whole days apart. */
  lemma MidnightShift(d: int, k: int)
    ensures Midnight(d - k) == Midnight(d) - k * MsPerDay
  {
  }

  /** Day of week as JavaScript's getDay reports it: 0 is Sunday; day 0 was a Thursday. */
  function Weekday(d: int): (w: int)
    ensures 0 <= w < 7
  {
    (d + 4) % 7
  }

  /** Consecutive days have consecutive weekdays, Saturday (6) wrapping round to Sunday (0). */
  lemma WeekdayNext(d: int)
    ensures Weekday(d + 1) == (Weekday(d) + 1) % 7
  {
  }

  lemma WeekStartIsSunday(d: int)
    ensures Weekday(d - Weekday(d)) == 0
  {
  }

  /** The Gregorian leap-year rule, applied to every year (proleptically). */
  predicate IsLeapYear(y: int)
  {
    y % 4 == 0 && (y % 100 != 0 || y % 400 == 0)
  }

  /** The number of days in month `m` (1..12) of year `y`. */
  function DaysInMonth(y: int, m: int): int
    requires 1 <= m <= 12
  {
    if m == 2 then (if IsLeapYear(y) then 29 else 28)
    else if m == 4 || m == 6 || m == 9 || m == 11 then 30
    else 31
  }

  /** The leap rule repeats every 400 years. */
  lemma LeapYearPeriodic(era: int, n: int)
    ensures IsLeapYear(400 * era + n) == IsLeapYear(n)
  {
    ModShift4(era, n);
    ModShift100(era, n);
    ModShift400(era, n);
  }

  lemma ModShift4(era: int, n: int)
    ensures (400 * era + n) % 4 == n % 4
  {
    assert 400 * era + n == 4 * (100 * era + n / 4) + n % 4;
  }

  lemma ModShift100(era: int, n: int)
    ensures (400 * era + n) % 100 == n % 100
  {
    assert 400 * era + n == 100 * (4 * era + n / 100) + n % 100;
  }

  lemma ModShift400(era: int, n: int)
    ensures (400 * era + n) % 400 == n % 400
  {
    assert 400 * era + n == 400 * (era + n / 400) + n % 400;
  }

  /*
   * Civil dates are handled in eras of 400 years (146097 days) that begin on
   * 1 March of a year divisible by 400; within an era, years also begin on
   * 1 March, so that the leap day is the last day of a year of era.
   */

  /** Days from the start of an era to the start of its year `yoe`. */
  function DoeStart(yoe: int): int { 365 * yoe + yoe / 4 - yoe / 100 }

  /** The length of year of era `yoe`: it ends with the February of calendar year `yoe + 1`. */
  function EraYearLength(yoe: int): int { if IsLeapYear(yoe + 1) then 366 else 365 }

  /** Consecutive years of era follow each other; the last one ends the era. */
  lemma DoeStartStep(yoe: int)
    requires 0 <= yoe < 400
    ensures DoeStart(yoe) + EraYearLength(yoe) == if yoe < 399 then DoeStart(yoe + 1) else 146097
  {
    if yoe < 399 {
      DivStep4(yoe + 1);
      DivStep100(yoe + 1);
      assert (yoe + 1) % 400 != 0;
    } else {
      assert DoeStart(399) == 145731 && IsLeapYear(400);
    }
  }

  lemma DivStep4(n: int)
    requires n >= 1
    ensures n / 4 - (n - 1) / 4 == if n % 4 == 0 then 1 else 0
  {
  }

  lemma DivStep100(n: int)
    requires n >= 1
    ensures n / 100 - (n - 1) / 100 == if n % 100 == 0 then 1 else 0
  {
  }

  lemma DoeStartMonotone(a: int, b: int)
    requires 0 <= a <= b
    ensures DoeStart(a) <= DoeStart(b)
  {
  }

  /** Century of era of a day of era; the last day of an era stays in century 3. */
  function Century(doe: int): int { if doe / 36524 < 3 then doe / 36524 else 3 }
  /** Year within a four-year cycle; the leap day stays in year 3. */
  function YearOfQuad(doq: int): int { if doq / 365 < 3 then doq / 365 else 3 }

  lemma DoeStartParts(c: int, q: int, yq: int)
    requires 0 <= c < 4 && 0 <= q < 25 && 0 <= yq < 4
    ensures DoeStart(100 * c + 4 * q + yq) == 36524 * c + 1461 * q + 365 * yq
  {
  }

  /** The year of era that day of era `doe` belongs to: the day lies within that year. */
  function YearOfEra(doe: int): (yoe: int)
    requires 0 <= doe < 146097
    ensures 0 <= yoe < 400
    ensures DoeStart(yoe) <= doe < DoeStart(yoe) + EraYearLength(yoe)
  {
    var c := Century(doe);
    var doc := doe - 36524 * c;
    var q := doc / 1461;
    var yq := YearOfQuad(doc - 1461 * q);
    DoeStartParts(c, q, yq);
    YearOfEraLeapDay(c, q, yq, doc - 1461 * q);
    100 * c + 4 * q + yq
  }

  /** Only the last year of a four-year cycle, outside a century's end (unless the era's), has a 366th day. */
  lemma YearOfEraLeapDay(c: int, q: int, yq: int, doq: int)
    requires 0 <= c < 4 && 0 <= q < 25 && 0 <= yq < 4 && 0 <= doq < 1461
    requires 1461 * q + doq < (if c < 3 then 36524 else 36525)
    requires yq == YearOfQuad(doq)
    ensures doq - 365 * yq < EraYearLength(100 * c + 4 * q + yq)
  {
    if yq == 3 && doq == 1460 {
      var n := 100 * c + 4 * q + 4;
      if q < 24 {
        assert n % 4 == 0 by { assert n == 4 * (25 * c + q + 1); }
        assert n % 100 != 0 by { assert n == 100 * c + 4 * (q + 1) && 0 < 4 * (q + 1) < 100; }
      } else {
        assert c == 3 && n == 400;
      }
      assert IsLeapYear(n);
    }
  }

  /** A day within year of era `yoe` is assigned to that year. */
  lemma YearOfEraOf(yoe: int, doy: int)
    requires 0 <= yoe < 400 && 0 <= doy < EraYearLength(yoe)
    ensures DoeStart(yoe) + doy < 146097
    ensures YearOfEra(DoeStart(yoe) + doy) == yoe
  {
    assert DoeStart(yoe) + doy < 146097 by {
      DoeStartStep(yoe);
      if yoe < 399 {
        DoeStartMonotone(yoe + 1, 399);
        DoeStartStep(399);
      }
    }
    var doe := DoeStart(yoe) + doy;
    var y := YearOfEra(doe);
    if y < yoe {
      assert false by {
        DoeStartStep(y);
        DoeStartMonotone(y + 1, yoe);
      }
    } else if y > yoe {
      assert false by {
        DoeStartStep(yoe);
        DoeStartMonotone(yoe + 1, y);
      }
    }
  }

  /** First day of year of month `mp`, counting March as month 0. */
  function MonthStartDoy(mp: int): int { (153 * mp + 2) / 5 }
  /** The month (March = 0) that day of year `doy` falls in. */
  function MonthOfYear(doy: int): int { (5 * doy + 2) / 153 }

  /** The calendar month (1..12) of month `mp` counted from March. */
  function CalendarMonth(mp: int): int { if mp < 10 then mp + 3 else mp - 9 }
  /** The month counted from March of calendar month `m`. */
  function MarchMonth(m: int): int { if m > 2 then m - 3 else m + 9 }

  lemma MonthOfYearBounds(doy: int)
    requires 0 <= doy <= 365
    ensures 0 <= MonthOfYear(doy) < 12
    ensures MonthStartDoy(MonthOfYear(doy)) <= doy < MonthStartDoy(MonthOfYear(doy) + 1)
  {
  }

  lemma MonthOfYearOf(mp: int, doy: int)
    requires 0 <= mp < 12 && MonthStartDoy(mp) <= doy < MonthStartDoy(mp + 1)
    ensures MonthOfYear(doy) == mp
  {
  }

  /** Every month from March to January is as long as the calendar says. */
  lemma MonthStartLength(y: int, mp: int)
    requires 0 <= mp < 11
    ensures MonthStartDoy(mp + 1) - MonthStartDoy(mp) == DaysInMonth(y, CalendarMonth(mp))
  {
  }

  /** Era, year of era and day of (March-based) year of day number `z`. */
  function EraParts(z: int): (p: (int, int, int))
    ensures 0 <= p.1 < 400 && 0 <= p.2 < EraYearLength(p.1)
    ensures 0 <= DoeStart(p.1) + p.2 < 146097
    ensures z + 719468 == p.0 * 146097 + DoeStart(p.1) + p.2
  {
    var zz := z + 719468;
    var era := zz / 146097;
    var doe := zz - era * 146097;
    var yoe := YearOfEra(doe);
    (era, yoe, doe - DoeStart(yoe))
  }

  /** Civil date of day number `z`: a valid Gregorian date. */
  function CivilFromDays(z: int): (c: Civil)
    ensures 1 <= c.month <= 12 && 1 <= c.day <= DaysInMonth(c.year, c.month)
  {
    var (era, yoe, doy) := EraParts(z);
    MonthOfYearBounds(doy);
    var mp := MonthOfYear(doy);
    var m := CalendarMonth(mp);
    var y := yoe + 400 * era + (if m <= 2 then 1 else 0);
    if mp < 11 then
      MonthStartLength(y, mp);
      Civil(y, m, doy - MonthStartDoy(mp) + 1)
    else
      LeapYearPeriodic(era, yoe + 1);
      assert y == 400 * era + (yoe + 1);
      Civil(y, m, doy - MonthStartDoy(mp) + 1)
  }

  /** Day number of a civil date; `d` may run past the month, as JavaScript's Date allows. */
  function DaysFromCivil(y: int, m: int, d: int): int
    requires 1 <= m <= 12
  {
    var y' := if m <= 2 then y - 1 else y;
    var era := y' / 400;
    var yoe := y' - 400 * era;
    era * 146097 + DoeStart(yoe) + MonthStartDoy(MarchMonth(m)) + d - 1 - 719468
  }

  lemma EraOfYear(era: int, yoe: int)
    requires 0 <= yoe < 400
    ensures (400 * era + yoe) / 400 == era
  {
  }

  /** The day number of a date whose (March-based) year is year `yoe` of era `era`. */
  lemma DaysFromCivilOfEra(y: int, m: int, d: int, era: int, yoe: int)
    requires 1 <= m <= 12 && 0 <= yoe < 400
    requires (if m <= 2 then y - 1 else y) == 400 * era + yoe
    ensures DaysFromCivil(y, m, d) == era * 146097 + DoeStart(yoe) + MonthStartDoy(MarchMonth(m)) + d - 1 - 719468
  {
    EraOfYear(era, yoe);
  }

  /** Converting a day to its civil date and back gives the same day. */
  lemma {:induction false} CivilRoundTrip(z: int)
    ensures var c := CivilFromDays(z); DaysFromCivil(c.year, c.month, c.day) == z
  {
    var (era, yoe, doy) := EraParts(z);
    var mp := MonthOfYear(doy);
    var m := CalendarMonth(mp);
    var c := CivilFromDays(z);
    assert c == Civil(400 * era + yoe + (if m <= 2 then 1 else 0), m, doy - MonthStartDoy(mp) + 1);
    assert 0 <= mp < 12 && MarchMonth(m) == mp by { MonthOfYearBounds(doy); }
    DaysFromCivilOfEra(c.year, c.month, c.day, era, yoe);
  }

  /** `EraParts` of a day given as a whole number of eras plus a day of era. */
  lemma EraPartsOfDoe(z: int, era: int, doe: int)
    requires 0 <= doe < 146097 && z + 719468 == era * 146097 + doe
    ensures EraParts(z) == (era, YearOfEra(doe), doe - DoeStart(YearOfEra(doe)))
  {
    DivUnique(z + 719468, era, doe);
  }

  /** A day of year within year of era `yoe` of era `era` is decomposed back into those parts. */
  lemma EraPartsOf(era: int, yoe: int, doy: int)
    requires 0 <= yoe < 400 && 0 <= doy < EraYearLength(yoe)
    ensures EraParts(era * 146097 + DoeStart(yoe) + doy - 719468) == (era, yoe, doy)
  {
    var doe := DoeStart(yoe) + doy;
    var z := era * 146097 + doe - 719468;
    YearOfEraOf(yoe, doy);
    EraPartsOfDoe(z, era, doe);
  }

  /** A day of year within a month lies before the end of its year of era. */
  lemma DayOfYearInYear(y: int, m: int, d: int)
    requires 1 <= m <= 12 && 1 <= d <= DaysInMonth(y, m)
    ensures MonthStartDoy(MarchMonth(m)) + d - 1 < MonthStartDoy(MarchMonth(m) + 1)
    ensures var y' := if m <= 2 then y - 1 else y;
      MonthStartDoy(MarchMonth(m)) + d - 1 < EraYearLength(y' - 400 * (y' / 400))
  {
    var y' := if m <= 2 then y - 1 else y;
    var era := y' / 400;
    var yoe := y' - 400 * era;
    var mp := MarchMonth(m);
    if mp < 11 {
      MonthStartLength(y, mp);
    } else {
      LeapYearPeriodic(era, yoe + 1);
      assert y == 400 * era + (yoe + 1);
    }
  }

  /** A valid civil date converts to a day whose civil date is that date. */
  lemma {:induction false} DaysFromCivilRoundTrip(y: int, m: int, d: int)
    requires 1 <= m <= 12 && 1 <= d <= DaysInMonth(y, m)
    ensures CivilFromDays(DaysFromCivil(y, m, d)) == Civil(y, m, d)
  {
    var y' := if m <= 2 then y - 1 else y;
    var era := y' / 400;
    var yoe := y' - 400 * era;
    var mp := MarchMonth(m);
    var doy := MonthStartDoy(mp) + d - 1;
    var z := DaysFromCivil(y, m, d);
    assert EraParts(z) == (era, yoe, doy) by {
      DayOfYearInYear(y, m, d);
      assert z == era * 146097 + DoeStart(yoe) + doy - 719468;
      EraPartsOf(era, yoe, doy);
    }
    assert MonthOfYear(doy) == mp by {
      DayOfYearInYear(y, m, d);
      MonthOfYearOf(mp, doy);
    }
    assert CalendarMonth(mp) == m && y == yoe + 400 * era + (if m <= 2 then 1 else 0);
  }

  /** Consecutive 1sts of the month lie as many days apart as the earlier month is long. */
  lemma MonthLength(y: int, m: int)
    requires 1 <= m <= 12
    ensures (if m < 12 then DaysFromCivil(y, m + 1, 1) else DaysFromCivil(y + 1, 1, 1))
              - DaysFromCivil(y, m, 1) == DaysInMonth(y, m)
  {
    if m == 2 {
      FebruaryLength(y);
    } else {
      MarchToJanuaryLength(y, m);
    }
  }

  /** February runs from its 1st to 1 March: 29 days in a leap year, otherwise 28. */
  lemma FebruaryLength(y: int)
    ensures DaysFromCivil(y, 3, 1) - DaysFromCivil(y, 2, 1) == DaysInMonth(y, 2)
  {
    var era := (y - 1) / 400;
    var yoe := (y - 1) - 400 * era;
    assert DaysFromCivil(y, 3, 1) - DaysFromCivil(y, 2, 1) == EraYearLength(yoe) - 337 by {
      DaysFromCivilOfEra(y, 2, 1, era, yoe);
      if yoe < 399 {
        DaysFromCivilOfEra(y, 3, 1, era, yoe + 1);
      } else {
        DaysFromCivilOfEra(y, 3, 1, era + 1, 0);
      }
      DoeStartStep(yoe);
    }
    assert EraYearLength(yoe) - 337 == DaysInMonth(y, 2) by {
      LeapYearPeriodic(era, yoe + 1);
      assert y == 400 * era + (yoe + 1);
    }
  }

  /** The other months lie within one March-based year, so only their month starts differ. */
  lemma MarchToJanuaryLength(y: int, m: int)
    requires 1 <= m <= 12 && m != 2
    ensures (if m < 12 then DaysFromCivil(y, m + 1, 1) else DaysFromCivil(y + 1, 1, 1))
              - DaysFromCivil(y, m, 1) == DaysInMonth(y, m)
  {
    var mp := MarchMonth(m);
    var y' := if m <= 2 then y - 1 else y;
    var era := y' / 400;
    var yoe := y' - 400 * era;
    EraOfYear(era, yoe);
    if m < 12 {
      DaysFromCivilOfEra(y, m + 1, 1, era, yoe);
    } else {
      DaysFromCivilOfEra(y + 1, 1, 1, era, yoe);
    }
    DaysFromCivilOfEra(y, m, 1, era, yoe);
    MonthStartLength(y, mp);
  }

  lemma DivUnique(n: int, q: int, r: int)
    requires 0 <= r < 146097 && n == q * 146097 + r
    ensures n / 146097 == q
  {
  }

  /** The 1st of a day's month lies `day - 1` days earlier and has the same year and month. */
  lemma {:induction false} FirstOfMonth(z: int)
    ensures var c := CivilFromDays(z);
      DaysFromCivil(c.year, c.month, 1) == z - (c.day - 1) &&
      CivilFromDays(z - (c.day - 1)) == Civil(c.year, c.month, 1)
  {
    var c := CivilFromDays(z);
    CivilRoundTrip(z);
    DaysFromCivilShift(c.year, c.month, c.day, c.day - 1);
    DaysFromCivilRoundTrip(c.year, c.month, 1);
  }

  /** Day numbers are linear in the day of the month. */
  lemma DaysFromCivilShift(y: int, m: int, d: int, k: int)
    requires 1 <= m <= 12
    ensures DaysFromCivil(y, m, d - k) == DaysFromCivil(y, m, d) - k
  {
  }

  /** 1970-01-01 is day 0, a Thursday. */
  lemma EpochDay()
    ensures DaysFromCivil(1970, 1, 1) == 0 && Weekday(0) == 4
  {
    DaysFromCivilOfEra(1970, 1, 1, 4, 369);
    assert DoeStart(369) == 134774 && MonthStartDoy(MarchMonth(1)) == 306;
  }

  /** Day 0 is 1970-01-01. */
  lemma EpochCivil()
    ensures CivilFromDays(0) == Civil(1970, 1, 1)
  {
    EpochDay();
    DaysFromCivilRoundTrip(1970, 1, 1);
  }
}

=== FILE: ledger.dfy ===
/**
 * The wallet ledger of the backend: one store of cards, a scan log, a fee
 * log and a transaction log, and the five request handlers that read and
 * update it (scan, balance, register-user, topup, deduct).
 *
 * Money is counted in whole paise (1/100 rupee). A request field that is
 * missing or falsy is the empty string here; an amount that may be missing
 * is an Option. Instants are abstract integers supplied by the caller.
 * A handler that returns an error leaves the store exactly as it was,
 * because the source returns before writing its working copy back.
 */
module Ledger {
  import opened Basics

  /** Deductions above ₹100 need the card's PIN. */
  const PinThreshold: int := 10000
  /** Deductions above ₹500 pay a platform fee. */
  const FeeThreshold: int := 50000
  /** A card whose total spend exceeds ₹5000 is eligible for a reward. */
  const RewardThreshold: int := 500000

  datatype Card = Card(email: string, pin: string, balance: int, totalSpent: int)

  /** The record a card gets when it is first referenced. */
  const BlankCard: Card := Card("", "", 0, 0)

  datatype ScanRecord = ScanRecord(uid: string, time: int)

  datatype FeeRecord = FeeRecord(uid: string, email: string, fee: int, time: int)

  datatype TxType = Topup | Payment

  datatype Transaction = Transaction(
    txType: TxType, uid: string, amount: int, fee: int, finalAmount: int, time: int)

  /** The error responses of the handlers, one per message. */
  datatype Error =
    | MissingUid          // "Missing uid"
    | MissingUidOrAmount  // "Missing uid or amount"
    | CardNotFound        // "Card not found"
    | PinNotSet           // "User PIN not set"
    | IncorrectPin        // "Incorrect PIN"
    | InsufficientBalance // "Insufficient balance"

  /** The body of a successful deduct response. */
  datatype Receipt = Receipt(newBalance: int, fee: int, rewardEligible: bool)

  /** Two percent of `amount`, rounded to the nearest paisa, halves upwards. */
  function TwoPercent(amount: int): (fee: int)
    ensures 100 * fee - 50 <= 2 * amount < 100 * fee + 50
  {
    (2 * amount + 50) / 100
  }

  /** The platform fee charged on a deduction of `amount`. */
  function PlatformFee(amount: int): (fee: int)
    ensures amount <= FeeThreshold ==> fee == 0
    ensures amount > FeeThreshold ==> fee > 0 && 100 * fee - 50 <= 2 * amount < 100 * fee + 50
  {
    if amount > FeeThreshold then TwoPercent(amount) else 0
  }

  /** Worked values: ₹500 pays nothing, ₹500.01 pays ₹10.00, ₹600 pays ₹12.00, ₹1000 pays ₹20.00. */
  lemma FeeExamples()
    ensures PlatformFee(50000) == 0 && PlatformFee(50001) == 1000
    ensures PlatformFee(60000) == 1200 && PlatformFee(100000) == 2000
  {
  }

  /** The principal `t` pays for `uid`'s card: its amount if it is one of its payments. */
  function PaidIn(t: Transaction, uid: string): int
  {
    if t.txType == Payment && t.uid == uid then t.amount else 0
  }

  /** The change `t` makes to `uid`'s balance. */
  function FlowIn(t: Transaction, uid: string): int
  {
    if t.uid != uid then 0 else if t.txType == Topup then t.finalAmount else -t.finalAmount
  }

  /** Sum of the principal of `uid`'s payments in `txs`. */
  function PaidBy(txs: seq<Transaction>, uid: string): int
  {
    if txs == [] then 0 else PaidIn(txs[0], uid) + PaidBy(txs[1..], uid)
  }

  /** Money that `txs` moved onto `uid`'s card: top-ups in, payments (with fee) out. */
  function NetFlow(txs: seq<Transaction>, uid: string): int
  {
    if txs == [] then 0 else FlowIn(txs[0], uid) + NetFlow(txs[1..], uid)
  }

  /** A fee as the fee log and the transaction log both know it: uid, fee and time. */
  datatype FeeEntry = FeeEntry(uid: string, fee: int, time: int)

  /** The fee log's entries, in order, without the email. */
  function FeeEntries(fees: seq<FeeRecord>): (es: seq<FeeEntry>)
    ensures |es| == |fees|
    ensures forall i :: 0 <= i < |fees| ==> es[i] == FeeEntry(fees[i].uid, fees[i].fee, fees[i].time)
  {
    if fees == [] then [] else [FeeEntry(fees[0].uid, fees[0].fee, fees[0].time)] + FeeEntries(fees[1..])
  }

  /** The fee a transaction charged, if it is a payment that charged one. */
  function ChargedEntry(t: Transaction): seq<FeeEntry>
  {
    if t.txType == Payment && t.fee > 0 then [FeeEntry(t.uid, t.fee, t.time)] else []
  }

  /** The fees the payments of `txs` charged, in order. */
  function ChargedEntries(txs: seq<Transaction>): seq<FeeEntry>
  {
    if txs == [] then [] else ChargedEntry(txs[0]) + ChargedEntries(txs[1..])
  }

  /** Sum of the fees in a fee log. */
  function FeeTotal(fees: seq<FeeRecord>): int
  {
    if fees == [] then 0 else fees[0].fee + FeeTotal(fees[1..])
  }

  /** Sum of the fees the payments of `txs` charged. */
  function ChargedFees(txs: seq<Transaction>): int
  {
    if txs == [] then 0
    else (if txs[0].txType == Payment && txs[0].fee > 0 then txs[0].fee else 0) + ChargedFees(txs[1..])
  }

  lemma {:induction false} PaidByAppend(txs: seq<Transaction>, t: Transaction, uid: string)
    ensures PaidBy(txs + [t], uid) == PaidBy(txs, uid) + PaidIn(t, uid)
  {
    if txs != [] {
      assert (txs + [t])[1..] == txs[1..] + [t];
      PaidByAppend(txs[1..], t, uid);
    }
  }

  lemma {:induction false} NetFlowAppend(txs: seq<Transaction>, t: Transaction, uid: string)
    ensures NetFlow(txs + [t], uid) == NetFlow(txs, uid) + FlowIn(t, uid)
  {
    if txs != [] {
      assert (txs + [t])[1..] == txs[1..] + [t];
      NetFlowAppend(txs[1..], t, uid);
    }
  }

  /**
   * `fees` lists, in order, the uid, fee and time of every payment in `txs`
   * that charged a fee, and nothing else.
   */
  predicate FeeLogOf(fees: seq<FeeRecord>, txs: seq<Transaction>)
  {
    if txs == [] then fees == []
    else if txs[0].txType == Payment && txs[0].fee > 0 then
      && fees != []
      && fees[0].uid == txs[0].uid && fees[0].fee == txs[0].fee && fees[0].time == txs[0].time
      && FeeLogOf(fees[1..], txs[1..])
    else FeeLogOf(fees, txs[1..])
  }

  /** The fee log matches the payments exactly when its entries are the fees they charged, in order. */
  lemma {:induction false} FeeLogOfEntries(fees: seq<FeeRecord>, txs: seq<Transaction>)
    ensures FeeLogOf(fees, txs) <==> FeeEntries(fees) == ChargedEntries(txs)
  {
    if txs == [] {
      assert ChargedEntries(txs) == [];
    } else if txs[0].txType == Payment && txs[0].fee > 0 {
      var e := FeeEntry(txs[0].uid, txs[0].fee, txs[0].time);
      assert ChargedEntries(txs) == [e] + ChargedEntries(txs[1..]);
      if fees != [] {
        var es := FeeEntries(fees);
        assert es == [es[0]] + FeeEntries(fees[1..]);
        FeeLogOfEntries(fees[1..], txs[1..]);
        if es == ChargedEntries(txs) {
          assert es[0] == e;
          assert es[1..] == FeeEntries(fees[1..]);
        }
      }
    } else {
      assert ChargedEntries(txs) == ChargedEntries(txs[1..]);
      FeeLogOfEntries(fees, txs[1..]);
    }
  }

  /**
   * Logging a transaction keeps the fee log matched when the fee log gains
   * the transaction's fee record if it is a payment that charged a fee, and
   * nothing otherwise.
   */
  lemma {:induction false} FeeLogOfAppend(fees: seq<FeeRecord>, txs: seq<Transaction>, t: Transaction, extra: seq<FeeRecord>)
    requires FeeLogOf(fees, txs)
    requires if t.txType == Payment && t.fee > 0
             then |extra| == 1 && extra[0].uid == t.uid && extra[0].fee == t.fee && extra[0].time == t.time
             else extra == []
    ensures FeeLogOf(fees + extra, txs + [t])
  {
    if txs == [] {
      assert fees + extra == extra && txs + [t] == [t];
      assert extra != [] ==> extra[1..] == [];
    } else {
      assert (txs + [t])[1..] == txs[1..] + [t];
      if txs[0].txType == Payment && txs[0].fee > 0 {
        assert (fees + extra)[1..] == fees[1..] + extra;
        FeeLogOfAppend(fees[1..], txs[1..], t, extra);
      } else {
        FeeLogOfAppend(fees, txs[1..], t, extra);
      }
    }
  }

  /** A fee log that matches the payments totals what they charged. */
  lemma {:induction false} FeeTotalCharged(fees: seq<FeeRecord>, txs: seq<Transaction>)
    requires FeeLogOf(fees, txs)
    ensures FeeTotal(fees) == ChargedFees(txs)
  {
    if txs == [] {
    } else if txs[0].txType == Payment && txs[0].fee > 0 {
      FeeTotalCharged(fees[1..], txs[1..]);
    } else {
      FeeTotalCharged(fees, txs[1..]);
    }
  }

  /** A uid that no transaction names has paid nothing and received nothing. */
  lemma {:induction false} UnloggedUid(txs: seq<Transaction>, uid: string)
    requires forall i :: 0 <= i < |txs| ==> txs[i].uid != uid
    ensures PaidBy(txs, uid) == 0 && NetFlow(txs, uid) == 0
  {
    if txs != [] {
      UnloggedUid(txs[1..], uid);
    }
  }

  /**
   * What every handler keeps: no card has the empty uid, each log entry
   * names a known card, each card's totalSpent is the principal of its
   * payments, each balance is what the log moved onto the card, and the fee
   * log lists, in order, the uid, fee and time of every payment that
   * charged a fee.
   */
  ghost predicate Consistent(cards: map<string, Card>, scans: seq<ScanRecord>,
                             fees: seq<FeeRecord>, txs: seq<Transaction>)
  {
    && "" !in cards
    && (forall i :: 0 <= i < |scans| ==> scans[i].uid in cards)
    && (forall i :: 0 <= i < |fees| ==> fees[i].uid in cards)
    && (forall i :: 0 <= i < |txs| ==> txs[i].uid in cards)
    && (forall u {:trigger cards[u]} :: u in cards ==> cards[u].totalSpent == PaidBy(txs, u))
    && (forall u {:trigger cards[u]} :: u in cards ==> cards[u].balance == NetFlow(txs, u))
    && FeeLogOf(fees, txs)
  }

  /** A blank card for a uid no log names keeps the store consistent. */
  lemma NewCardConsistent(cards: map<string, Card>, scans: seq<ScanRecord>,
                          fees: seq<FeeRecord>, txs: seq<Transaction>, uid: string)
    requires Consistent(cards, scans, fees, txs) && uid !in cards && uid != ""
    ensures Consistent(cards[uid := BlankCard], scans, fees, txs)
  {
    UnloggedUid(txs, uid);
  }

  /** A top-up credited to a known card and logged keeps the store consistent. */
  lemma TopupConsistent(cards: map<string, Card>, scans: seq<ScanRecord>,
                        fees: seq<FeeRecord>, txs: seq<Transaction>, uid: string, amt: int, now: int)
    requires Consistent(cards, scans, fees, txs) && uid in cards
    ensures Consistent(cards[uid := cards[uid].(balance := cards[uid].balance + amt)],
                       scans, fees, txs + [Transaction(Topup, uid, amt, 0, amt, now)])
  {
    var t := Transaction(Topup, uid, amt, 0, amt, now);
    forall u | u in cards
      ensures PaidBy(txs + [t], u) == PaidBy(txs, u)
      ensures NetFlow(txs + [t], u) == NetFlow(txs, u) + (if u == uid then amt else 0)
    {
      PaidByAppend(txs, t, u);
      NetFlowAppend(txs, t, u);
    }
    FeeLogOfAppend(fees, txs, t, []);
    assert fees + [] == fees;
  }

  /**
   * A payment debited from a known card with its fee, added to its
   * totalSpent, logged, and its fee (if any) recorded, keeps the store
   * consistent.
   */
  lemma PaymentConsistent(cards: map<string, Card>, scans: seq<ScanRecord>,
                          fees: seq<FeeRecord>, txs: seq<Transaction>, uid: string, amt: int, now: int)
    requires Consistent(cards, scans, fees, txs) && uid in cards
    ensures var card, fee := cards[uid], PlatformFee(amt);
      Consistent(cards[uid := card.(balance := card.balance - (amt + fee), totalSpent := card.totalSpent + amt)],
                 scans,
                 (if fee > 0 then fees + [FeeRecord(uid, card.email, fee, now)] else fees),
                 txs + [Transaction(Payment, uid, amt, fee, amt + fee, now)])
  {
    var card, fee := cards[uid], PlatformFee(amt);
    var t := Transaction(Payment, uid, amt, fee, amt + fee, now);
    forall u | u in cards
      ensures PaidBy(txs + [t], u) == PaidBy(txs, u) + (if u == uid then amt else 0)
      ensures NetFlow(txs + [t], u) == NetFlow(txs, u) - (if u == uid then amt + fee else 0)
    {
      PaidByAppend(txs, t, u);
      NetFlowAppend(txs, t, u);
    }
    if fee > 0 {
      FeeLogOfAppend(fees, txs, t, [FeeRecord(uid, card.email, fee, now)]);
    } else {
      FeeLogOfAppend(fees, txs, t, []);
      assert fees + [] == fees;
    }
  }

  /** The persisted store: `cards`, `scans`, `fees` and `transactions`. */
  class Store {
    var cards: map<string, Card>
    var scans: seq<ScanRecord>
    var fees: seq<FeeRecord>
    var transactions: seq<Transaction>

    /** The store invariant: see Consistent. */
    ghost predicate Valid()
      reads this
    {
      Consistent(cards, scans, fees, transactions)
    }

    /** The card stored under `uid`, or the record a first reference would create. */
    ghost function CardOrBlank(uid: string): Card
      reads this
    {
      if uid in cards then cards[uid] else BlankCard
    }

    /** The store as first created: no cards and three empty logs. */
    constructor ()
      ensures Valid()
      ensures cards == map[] && scans == [] && fees == [] && transactions == []
    {
      cards, scans, fees, transactions := map[], [], [], [];
    }

    /** Adds a blank card for a (non-empty) uid that has none; no log names such a uid. */
    method EnsureCard(uid: string)
      requires Valid() && uid != ""
      modifies this
      ensures Valid()
      ensures cards == old(cards)[uid := old(CardOrBlank(uid))]
      ensures scans == old(scans) && fees == old(fees) && transactions == old(transactions)
    {
      if uid !in cards {
        NewCardConsistent(cards, scans, fees, transactions, uid);
        cards := cards[uid := BlankCard];
      }
    }

    /** POST /scan: records a scan, creating the card on first sight. */
    method RecordScan(uid: string, now: int) returns (r: Result<int, Error>)
      requires Valid()
      modifies this
      ensures Valid()
      ensures uid == "" ==> r == Err(MissingUid) && unchanged(this)
      ensures uid != "" ==>
        && cards == old(cards)[uid := old(CardOrBlank(uid))]
        && scans == old(scans) + [ScanRecord(uid, now)]
        && fees == old(fees) && transactions == old(transactions)
        && r == Ok(cards[uid].balance)
    {
      if uid == "" {
        return Err(MissingUid);
      }
      EnsureCard(uid);
      scans := scans + [ScanRecord(uid, now)];
      r := Ok(cards[uid].balance);
    }

    /** GET /balance/:uid: the card's balance, 0 for an unknown uid; creates nothing. */
    method Balance(uid: string) returns (balance: int)
      ensures uid in cards ==> balance == cards[uid].balance
      ensures uid !in cards ==> balance == 0
    {
      if uid !in cards {
        return 0;
      }
      balance := cards[uid].balance;
    }

    /** POST /register-user: sets the email and the PIN that are supplied (non-empty). */
    method RegisterUser(uid: string, email: string, pin: string) returns (r: Result<string, Error>)
      requires Valid()
      modifies this
      ensures Valid()
      ensures uid == "" ==> r == Err(MissingUid) && unchanged(this)
      ensures uid != "" ==>
        var card := old(CardOrBlank(uid));
        && cards == old(cards)[uid := card.(email := if email != "" then email else card.email,
                                            pin := if pin != "" then pin else card.pin)]
        && scans == old(scans) && fees == old(fees) && transactions == old(transactions)
        && r == Ok(uid)
    {
      if uid == "" {
        return Err(MissingUid);
      }
      EnsureCard(uid);
      var card := cards[uid];
      if email != "" {
        card := card.(email := email);
      }
      if pin != "" {
        card := card.(pin := pin);
      }
      cards := cards[uid := card];
      r := Ok(uid);
    }

    /** POST /topup: credits the card (created if absent) and logs a top-up. */
    method Topup(uid: string, amount: Option<int>, now: int) returns (r: Result<int, Error>)
      requires Valid()
      modifies this
      ensures Valid()
      ensures (uid == "" || amount.None?) ==> r == Err(MissingUidOrAmount) && unchanged(this)
      ensures uid != "" && amount.Some? ==>
        var card, amt := old(CardOrBlank(uid)), amount.value;
        && cards == old(cards)[uid := card.(balance := card.balance + amt)]
        && transactions == old(transactions) + [Transaction(TxType.Topup, uid, amt, 0, amt, now)]
        && scans == old(scans) && fees == old(fees)
        && r == Ok(card.balance + amt)
    {
      if uid == "" || amount.None? {
        return Err(MissingUidOrAmount);
      }
      EnsureCard(uid);
      var amt := amount.value;
      var card := cards[uid];
      TopupConsistent(cards, scans, fees, transactions, uid, amt, now);
      cards := cards[uid := card.(balance := card.balance + amt)];
      transactions := transactions + [Transaction(TxType.Topup, uid, amt, 0, amt, now)];
      r := Ok(card.balance + amt);
    }

    /**
     * POST /deduct: the gates in order (card known; PIN above ₹100; balance
     * covers amount plus fee), then the debit, the payment record and, when
     * a fee is charged, the fee record, all written together.
     */
    method Deduct(uid: string, amount: Option<int>, pin: string, now: int) returns (r: Result<Receipt, Error>)
      requires Valid()
      modifies this
      ensures Valid()
      ensures r.Err? ==> unchanged(this)
      ensures (uid == "" || amount.None?) ==> r == Err(MissingUidOrAmount)
      ensures uid != "" && amount.Some? && uid !in old(cards) ==> r == Err(CardNotFound)
      ensures uid != "" && amount.Some? && uid in old(cards) ==>
        var card, amt := old(cards)[uid], amount.value;
        var fee := PlatformFee(amt);
        if amt > PinThreshold && card.pin == "" then r == Err(PinNotSet)
        else if amt > PinThreshold && pin != card.pin then r == Err(IncorrectPin)
        else if card.balance < amt + fee then r == Err(InsufficientBalance)
        else
          && cards == old(cards)[uid := card.(balance := card.balance - (amt + fee),
                                              totalSpent := card.totalSpent + amt)]
          && transactions == old(transactions) + [Transaction(Payment, uid, amt, fee, amt + fee, now)]
          && fees == (if fee > 0 then old(fees) + [FeeRecord(uid, card.email, fee, now)] else old(fees))
          && scans == old(scans)
          && r == Ok(Receipt(card.balance - (amt + fee), fee, card.totalSpent + amt > RewardThreshold))
      ensures r.Ok? ==> uid in cards && r.value.newBalance == cards[uid].balance >= 0
      ensures r.Ok? ==> (r.value.rewardEligible <==> cards[uid].totalSpent > RewardThreshold)
    {
      if uid == "" || amount.None? {
        return Err(MissingUidOrAmount);
      }
      if uid !in cards {
        return Err(CardNotFound);
      }
      var user := cards[uid];
      var amt := amount.value;

      if amt > PinThreshold {
        if user.pin == "" {
          return Err(PinNotSet);
        }
        if pin == "" || pin != user.pin {
          return Err(IncorrectPin);
        }
      }

      var platformFee := 0;
      ghost var pendingFees := fees;
      if amt > FeeThreshold {
        platformFee := TwoPercent(amt);
        pendingFees := fees + [FeeRecord(uid, user.email, platformFee, now)];
      }
      var finalAmount := amt + platformFee;

      if user.balance < finalAmount {
        // the pending fee record is dropped with the rest of the working copy
        return Err(InsufficientBalance);
      }

      assert platformFee == PlatformFee(amt);
      SavePayment(uid, amt, now);
      r := Ok(Receipt(user.balance - finalAmount, platformFee, user.totalSpent + amt > RewardThreshold));
    }

    /**
     * The write-back of a deduction that passed every gate: the card is
     * debited by amount plus fee and its totalSpent grows by the amount,
     * the payment is logged and, if a fee was charged, so is its fee record.
     * Both records carry the single instant `now`.
     */
    method SavePayment(uid: string, amt: int, now: int)
      requires Valid() && uid in cards
      modifies this
      ensures Valid()
      ensures var card, fee := old(cards)[uid], PlatformFee(amt);
        && cards == old(cards)[uid := card.(balance := card.balance - (amt + fee), totalSpent := card.totalSpent + amt)]
        && transactions == old(transactions) + [Transaction(Payment, uid, amt, fee, amt + fee, now)]
        && fees == (if fee > 0 then old(fees) + [FeeRecord(uid, card.email, fee, now)] else old(fees))
        && scans == old(scans)
    {
      var user, fee := cards[uid], PlatformFee(amt);
      cards := cards[uid := user.(balance := user.balance - (amt + fee), totalSpent := user.totalSpent + amt)];
      transactions := transactions + [Transaction(Payment, uid, amt, fee, amt + fee, now)];
      if fee > 0 {
        fees := fees + [FeeRecord(uid, user.email, fee, now)];
      }
      assert Valid() by {
        PaymentConsistent(old(cards), scans, old(fees), old(transactions), uid, amt, now);
      }
    }
  }

  /**
   * A fresh card topped up with ₹1000: a ₹600 deduction is refused while no
   * PIN is set, and once the PIN is registered it pays a ₹12 fee and leaves
   * ₹388, below the reward threshold; a further ₹400 is refused for
   * insufficient balance and the balance stays ₹388.
   */
  method FreshCardScenario() returns (refused: Result<Receipt, Error>, paid: Result<Receipt, Error>,
                                      short: Result<Receipt, Error>, left: int)
    ensures refused == Err(PinNotSet)
    ensures paid == Ok(Receipt(38800, 1200, false))
    ensures short == Err(InsufficientBalance) && left == 38800
  {
    var store := new Store();
    var credited := store.Topup("X", Some(100000), 1);
    assert store.cards == map["X" := Card("", "", 100000, 0)];
    refused := store.Deduct("X", Some(60000), "", 2);
    var registered := store.RegisterUser("X", "", "1234");
    assert store.cards == map["X" := Card("", "1234", 100000, 0)];
    FeeExamples();
    paid := store.Deduct("X", Some(60000), "1234", 3);
    assert store.cards["X"] == Card("", "1234", 38800, 60000);
    short := store.Deduct("X", Some(40000), "1234", 4);
    left := store.Balance("X");
  }
}

=== FILE: limits.dfy ===
/**
 * The spending-limit page of the user app: which stored limit is shown,
 * when its period began, how much was spent since then, and whether the
 * limit is exceeded. Also the checks made before a new limit is sent.
 *
 * Instants are milliseconds on the local clock (see Calendar); amounts are
 * whole paise. Transactions are the records the page receives, whose
 * fields may be missing.
 */
module SpendingLimits {
  import opened Basics
  import opened Calendar

  /** A stored limit: its amount and when it was set. */
  datatype LimitEntry = LimitEntry(amount: int, setAt: int)

  /** The limit the page works with, tagged with its kind and the card's uid. */
  datatype Limit = Limit(kind: string, amount: int, uid: string, setAt: int)

  /** A transaction as the page receives it: `time`, `timestamp` and `amount` may be missing. */
  datatype ClientTx = ClientTx(time: Option<int>, timestamp: Option<int>, amount: Option<int>)

  /** The order in which a stored limit is picked for display. */
  const Priority: seq<string> := ["daily", "weekly", "monthly"]

  /** The entry stored under `key`, if any; `limits` lists the keys in object order. */
  function Lookup(limits: seq<(string, LimitEntry)>, key: string): (e: Option<LimitEntry>)
    ensures e.None? <==> (forall i :: 0 <= i < |limits| ==> limits[i].0 != key)
    ensures e.Some? ==> exists i :: 0 <= i < |limits| && limits[i] == (key, e.value) &&
                                    forall j :: 0 <= j < i ==> limits[j].0 != key
  {
    if limits == [] then None
    else if limits[0].0 == key then Some(limits[0].1)
    else Lookup(limits[1..], key)
  }

  /** The first kind of `kinds` that has a stored entry. */
  function FirstPresent(kinds: seq<string>, limits: seq<(string, LimitEntry)>): (k: Option<string>)
    ensures k.Some? ==> Lookup(limits, k.value).Some?
    ensures k.Some? ==> exists i :: 0 <= i < |kinds| && kinds[i] == k.value &&
                                    forall j :: 0 <= j < i ==> Lookup(limits, kinds[j]).None?
    ensures k.None? ==> forall i :: 0 <= i < |kinds| ==> Lookup(limits, kinds[i]).None?
  {
    if kinds == [] then None
    else if Lookup(limits, kinds[0]).Some? then Some(kinds[0])
    else FirstPresent(kinds[1..], limits)
  }

  /** The kind of limit the page shows: daily, then weekly, then monthly, else the first key. */
  function ActiveKind(limits: seq<(string, LimitEntry)>): (k: Option<string>)
    ensures k.None? <==> limits == []
    ensures k.Some? ==> Lookup(limits, k.value).Some?
  {
    if limits == [] then None
    else match FirstPresent(Priority, limits)
      case Some(k) => Some(k)
      case None =>
        assert Lookup(limits, limits[0].0).Some?;
        Some(limits[0].0)
  }

  /** The priority order, stated kind by kind. */
  lemma ActiveKindPriority(limits: seq<(string, LimitEntry)>)
    ensures Lookup(limits, "daily").Some? ==> ActiveKind(limits) == Some("daily")
    ensures Lookup(limits, "daily").None? && Lookup(limits, "weekly").Some? ==>
              ActiveKind(limits) == Some("weekly")
    ensures (Lookup(limits, "daily").None? && Lookup(limits, "weekly").None? &&
             Lookup(limits, "monthly").Some?) ==> ActiveKind(limits) == Some("monthly")
    ensures (Lookup(limits, "daily").None? && Lookup(limits, "weekly").None? &&
             Lookup(limits, "monthly").None? && limits != []) ==> ActiveKind(limits) == Some(limits[0].0)
  {
    var rest, last := Priority[1..], Priority[1..][1..];
    assert rest == ["weekly", "monthly"] && last == ["monthly"] && last[1..] == [];
    if Lookup(limits, "daily").None? {
      assert FirstPresent(Priority, limits) == FirstPresent(rest, limits);
      if Lookup(limits, "weekly").None? {
        assert FirstPresent(rest, limits) == FirstPresent(last, limits);
      }
    }
  }

  /** The limit the page loads for card `uid`, or None when no limit is stored. */
  function SavedLimit(uid: string, limits: seq<(string, LimitEntry)>): (l: Option<Limit>)
    ensures l.None? <==> limits == []
    ensures l.Some? ==> Some(l.value.kind) == ActiveKind(limits) && l.value.uid == uid
    ensures l.Some? ==> Lookup(limits, l.value.kind) == Some(LimitEntry(l.value.amount, l.value.setAt))
  {
    match ActiveKind(limits)
    case None => None
    case Some(kind) =>
      var e := Lookup(limits, kind).value;
      Some(Limit(kind, e.amount, uid, e.setAt))
  }

  /**
   * The uid of the most recent scan, or empty when nothing was scanned. The
   * backend never logs a scan under the empty uid, so an empty result means
   * that no scan was logged at all.
   */
  function LastScannedUid(scanUids: seq<string>): (uid: string)
    ensures scanUids != [] ==> uid == scanUids[|scanUids| - 1]
    ensures uid != "" ==> uid in scanUids
    ensures (forall i :: 0 <= i < |scanUids| ==> scanUids[i] != "") ==> (uid == "" <==> scanUids == [])
  {
    if scanUids == [] then "" else scanUids[|scanUids| - 1]
  }

  /** Setting a limit is refused for want of a card exactly when no (non-empty) uid was ever scanned. */
  lemma NoCardScannedIffNoScan(scanUids: seq<string>, kind: string, amount: Option<int>, now: int)
    requires forall i :: 0 <= i < |scanUids| ==> scanUids[i] != ""
    ensures NewLimit(LastScannedUid(scanUids), kind, amount, now) == Err(NoCardScanned) <==> scanUids == []
  {
  }

  /** Start of the current day: the date of `now` at midnight. */
  function DailyStart(now: int): (s: int)
    ensures s == Midnight(DayNumber(now)) && DayNumber(s) == DayNumber(now)
    ensures s <= now < s + MsPerDay
  {
    var c := CivilFromDays(DayNumber(now));
    CivilRoundTrip(DayNumber(now));
    MidnightDay(DayNumber(now));
    Midnight(DaysFromCivil(c.year, c.month, c.day))
  }

  /** Start of the current week: the date moved back by the weekday, at midnight, which is a Sunday. */
  function WeeklyStart(now: int): (s: int)
    ensures s == Midnight(DayNumber(now) - Weekday(DayNumber(now)))
    ensures DayNumber(s) == DayNumber(now) - Weekday(DayNumber(now)) && Weekday(DayNumber(s)) == 0
    ensures DailyStart(now) - 7 * MsPerDay < s <= DailyStart(now)
  {
    var d := DayNumber(now);
    var c := CivilFromDays(d);
    WeekStartMidnight(d);
    Midnight(DaysFromCivil(c.year, c.month, c.day - Weekday(d)))
  }

  /** Midnight of day `d`'s date moved back by its weekday is the Sunday that begins its week. */
  lemma WeekStartMidnight(d: int)
    ensures var c := CivilFromDays(d);
      var s := Midnight(DaysFromCivil(c.year, c.month, c.day - Weekday(d)));
      && s == Midnight(d - Weekday(d)) && DayNumber(s) == d - Weekday(d)
      && Weekday(DayNumber(s)) == 0
      && Midnight(d) - 7 * MsPerDay < s <= Midnight(d)
  {
    var c := CivilFromDays(d);
    var w := Weekday(d);
    assert DaysFromCivil(c.year, c.month, c.day - w) == d - w by {
      CivilRoundTrip(d);
      DaysFromCivilShift(c.year, c.month, c.day, w);
    }
    assert DayNumber(Midnight(d - w)) == d - w by { MidnightDay(d - w); }
    assert Weekday(d - w) == 0 by { WeekStartIsSunday(d); }
    assert Midnight(d - w) == Midnight(d) - w * MsPerDay by { MidnightShift(d, w); }
  }

  /** Start of the current month: midnight on its 1st, at most 30 days before today. */
  function MonthlyStart(now: int): (s: int)
    ensures var c := CivilFromDays(DayNumber(now));
      CivilFromDays(DayNumber(s)) == Civil(c.year, c.month, 1)
    ensures s == Midnight(DayNumber(s))
    ensures DailyStart(now) - 31 * MsPerDay < s <= DailyStart(now)
  {
    var d := DayNumber(now);
    var c := CivilFromDays(d);
    MonthStartMidnight(d);
    Midnight(DaysFromCivil(c.year, c.month, 1))
  }

  /** Midnight on the 1st of day `d`'s month falls on that 1st, at most 30 days before `d`. */
  lemma MonthStartMidnight(d: int)
    ensures var c := CivilFromDays(d);
      var s := Midnight(DaysFromCivil(c.year, c.month, 1));
      && CivilFromDays(DayNumber(s)) == Civil(c.year, c.month, 1)
      && s == Midnight(DayNumber(s))
      && Midnight(d) - 31 * MsPerDay < s <= Midnight(d)
  {
    var c := CivilFromDays(d);
    var first := DaysFromCivil(c.year, c.month, 1);
    assert first == d - (c.day - 1) by { FirstOfMonth(d); }
    assert CivilFromDays(first) == Civil(c.year, c.month, 1) by { DaysFromCivilRoundTrip(c.year, c.month, 1); }
    assert DayNumber(Midnight(first)) == first by { MidnightDay(first); }
    assert Midnight(first) == Midnight(d) - (c.day - 1) * MsPerDay by { MidnightShift(d, c.day - 1); }
  }

  /**
   * The start of the period of a limit kind: a midnight no later than `now`
   * and less than 32 days before it; none for a kind the page does not know.
   */
  function PeriodStart(kind: string, now: int): (s: Option<int>)
    ensures s.Some? <==> kind in Priority
    ensures s.Some? ==> s.value <= now && now - s.value < 32 * MsPerDay
    ensures s.Some? ==> s.value == Midnight(DayNumber(s.value))
  {
    if kind == "daily" then Some(DailyStart(now))
    else if kind == "weekly" then Some(WeeklyStart(now))
    else if kind == "monthly" then Some(MonthlyStart(now))
    else None
  }

  /**
   * Whether a transaction counts in a period starting at `start`: its instant
   * is `time`, or else `timestamp`, and an undated one never counts.
   */
  predicate InPeriod(t: ClientTx, start: int)
  {
    var instant := if t.time.Some? then t.time else t.timestamp;
    instant.Some? && instant.value >= start
  }

  /** The amount a transaction contributes; a missing amount counts as 0. */
  function AmountOf(t: ClientTx): int
  {
    if t.amount.Some? then t.amount.value else 0
  }

  /** The transactions of the period, in their original order, each as often as it occurs. */
  function InPeriodTxs(txs: seq<ClientTx>, start: int): (r: seq<ClientTx>)
    ensures |r| <= |txs|
    ensures forall i :: 0 <= i < |r| ==> InPeriod(r[i], start) && r[i] in txs
    ensures forall t :: t in txs && InPeriod(t, start) ==> t in r
    ensures forall t :: multiset(r)[t] == if InPeriod(t, start) then multiset(txs)[t] else 0
  {
    if txs == [] then []
    else
      assert txs == [txs[0]] + txs[1..];
      (if InPeriod(txs[0], start) then [txs[0]] else []) + InPeriodTxs(txs[1..], start)
  }

  lemma ConcatAssoc<T>(a: seq<T>, b: seq<T>, c: seq<T>)
    ensures a + (b + c) == (a + b) + c
  {
  }

  /** Filtering a log with one more transaction keeps it, at the end, exactly when it lies in the period. */
  lemma {:induction false} InPeriodTxsAppend(txs: seq<ClientTx>, t: ClientTx, start: int)
    ensures InPeriodTxs(txs + [t], start) == InPeriodTxs(txs, start) + (if InPeriod(t, start) then [t] else [])
  {
    if txs == [] {
      assert [] + [t] == [t];
    } else {
      var h, e := if InPeriod(txs[0], start) then [txs[0]] else [], if InPeriod(t, start) then [t] else [];
      calc {
        InPeriodTxs(txs + [t], start);
        { assert (txs + [t])[0] == txs[0] && (txs + [t])[1..] == txs[1..] + [t]; }
        h + InPeriodTxs(txs[1..] + [t], start);
        { InPeriodTxsAppend(txs[1..], t, start); }
        h + (InPeriodTxs(txs[1..], start) + e);
        { ConcatAssoc(h, InPeriodTxs(txs[1..], start), e); }
        InPeriodTxs(txs, start) + e;
      }
    }
  }

  /** Sum of the amounts of `txs`; not negative when no amount is. */
  function TotalAmount(txs: seq<ClientTx>): (total: int)
    ensures (forall i :: 0 <= i < |txs| ==> AmountOf(txs[i]) >= 0) ==> total >= 0
  {
    if txs == [] then 0 else AmountOf(txs[0]) + TotalAmount(txs[1..])
  }

  /** The spend of a period: the total of the transactions dated at or after its start. */
  function PeriodSpend(txs: seq<ClientTx>, start: int): (spent: int)
    ensures (forall i :: 0 <= i < |txs| ==> !InPeriod(txs[i], start)) ==> spent == 0
    ensures (forall i :: 0 <= i < |txs| ==> AmountOf(txs[i]) >= 0) ==> spent >= 0
  {
    var r := InPeriodTxs(txs, start);
    assert (forall i :: 0 <= i < |txs| ==> !InPeriod(txs[i], start)) ==> r == [];
    TotalAmount(r)
  }

  /** Each transaction adds its amount to the period spend if and only if it lies in the period. */
  lemma {:induction false} PeriodSpendAppend(txs: seq<ClientTx>, t: ClientTx, start: int)
    ensures PeriodSpend(txs + [t], start)
      == PeriodSpend(txs, start) + (if InPeriod(t, start) then AmountOf(t) else 0)
  {
    if txs == [] {
      assert [] + [t] == [t];
    } else {
      assert (txs + [t])[1..] == txs[1..] + [t];
      PeriodSpendAppend(txs[1..], t, start);
      var h := if InPeriod(txs[0], start) then [txs[0]] else [];
      TotalAmountConcat(h, InPeriodTxs(txs[1..] + [t], start));
      TotalAmountConcat(h, InPeriodTxs(txs[1..], start));
    }
  }

  lemma {:induction false} TotalAmountConcat(a: seq<ClientTx>, b: seq<ClientTx>)
    ensures TotalAmount(a + b) == TotalAmount(a) + TotalAmount(b)
  {
    if a == [] {
      assert a + b == b;
    } else {
      assert (a + b)[1..] == a[1..] + b;
      TotalAmountConcat(a[1..], b);
    }
  }

  /** With no negative amounts, a period that starts earlier has spent at least as much. */
  lemma {:induction false} PeriodSpendMonotone(txs: seq<ClientTx>, early: int, late: int)
    requires early <= late
    requires forall i :: 0 <= i < |txs| ==> AmountOf(txs[i]) >= 0
    ensures PeriodSpend(txs, late) <= PeriodSpend(txs, early)
  {
    if txs != [] {
      PeriodSpendMonotone(txs[1..], early, late);
      var hl := if InPeriod(txs[0], late) then [txs[0]] else [];
      var he := if InPeriod(txs[0], early) then [txs[0]] else [];
      TotalAmountConcat(hl, InPeriodTxs(txs[1..], late));
      TotalAmountConcat(he, InPeriodTxs(txs[1..], early));
    }
  }

  /** The spend the page shows for its current limit; 0 without a limit or for an unknown kind. */
  function CurrentSpending(saved: Option<Limit>, txs: seq<ClientTx>, now: int): (spent: int)
    ensures saved.None? ==> spent == 0
    ensures saved.Some? && PeriodStart(saved.value.kind, now).None? ==> spent == 0
    ensures (forall i :: 0 <= i < |txs| ==> AmountOf(txs[i]) >= 0) ==> spent >= 0
  {
    if saved.None? then 0
    else match PeriodStart(saved.value.kind, now)
      case None => 0
      case Some(start) => PeriodSpend(txs, start)
  }

  /** The week and the month never show less spend than the day. */
  lemma DailySpendIsSmallest(txs: seq<ClientTx>, now: int)
    requires forall i :: 0 <= i < |txs| ==> AmountOf(txs[i]) >= 0
    ensures PeriodSpend(txs, DailyStart(now)) <= PeriodSpend(txs, WeeklyStart(now))
    ensures PeriodSpend(txs, DailyStart(now)) <= PeriodSpend(txs, MonthlyStart(now))
  {
    PeriodSpendMonotone(txs, WeeklyStart(now), DailyStart(now));
    PeriodSpendMonotone(txs, MonthlyStart(now), DailyStart(now));
  }

  /** The limit is exceeded once the spend reaches it, which is exactly when nothing remains. */
  function IsLimitExceeded(saved: Option<Limit>, spent: int): (exceeded: bool)
    ensures exceeded <==> saved.Some? && RemainingAmount(saved, spent) == 0
  {
    saved.Some? && spent >= saved.value.amount
  }

  /** What is left of the limit, never below 0; 0 without a limit. */
  function RemainingAmount(saved: Option<Limit>, spent: int): (left: int)
    ensures left >= 0
    ensures saved.Some? ==> left >= saved.value.amount - spent
  {
    if saved.None? then 0
    else if saved.value.amount - spent > 0 then saved.value.amount - spent
    else 0
  }

  /** Below the limit, what was spent and what remains make up the limit. */
  lemma RemainderCompletesLimit(saved: Option<Limit>, spent: int)
    requires saved.Some? && !IsLimitExceeded(saved, spent)
    ensures spent + RemainingAmount(saved, spent) == saved.value.amount
    ensures RemainingAmount(saved, spent) > 0
  {
  }

  /** Why a new limit is not sent. */
  datatype LimitError = NoCardScanned | InvalidLimitAmount

  /**
   * The checks before a limit is sent: a card must have been scanned and the
   * amount must be present and positive; the limit is stamped with `now`.
   */
  function NewLimit(lastUid: string, kind: string, amount: Option<int>, now: int): (r: Result<Limit, LimitError>)
    ensures r.Ok? <==> lastUid != "" && amount.Some? && amount.value > 0
    ensures lastUid == "" ==> r == Err(NoCardScanned)
    ensures r.Ok? ==> r.value == Limit(kind, amount.value, lastUid, now)
  {
    if lastUid == "" then Err(NoCardScanned)
    else if amount.None? || amount.value <= 0 then Err(InvalidLimitAmount)
    else Ok(Limit(kind, amount.value, lastUid, now))
  }

  /** A limit that passes the checks is not exceeded before anything is spent. */
  lemma NewLimitNotExceeded(lastUid: string, kind: string, amount: Option<int>, now: int)
    requires NewLimit(lastUid, kind, amount, now).Ok?
    ensures var l := NewLimit(lastUid, kind, amount, now).value;
      !IsLimitExceeded(Some(l), 0) && RemainingAmount(Some(l), 0) == l.amount
  {
  }
}
